=== FILE: README.md ===
# Elevator simulation core in Dafny

This project models the core of the DVT elevator challenge. The core covers the
following parts:

- **The car.** An `Elevator` has an id, a current floor, a direction
  (Stationary, Up or Down), a state (Moving or Idle) and a passenger count. Its
  capacity is the constant `MaxPassengers = 10`.
- **The repository.** It owns one car, moves it and boards passengers into it.
  It also generates pools of fresh cars.
- **The dispatcher.** Over a pool of five cars it picks the nearest car that
  is idle and has room.
- **The service.** `CallElevatorAsync` guards the floor, dispatches, then moves
  and boards the repository's car, and catches every error.

The model is functional. A car is an immutable datatype. Each operation is a
pure function that returns an `Effect`, which holds three things:

- how the operation ended: `Returned(value)` or `Threw(error)`;
- the car afterwards;
- the milliseconds the operation waited.

The awaited `Task.Delay`s become that elapsed time. Exceptions become `Threw`
outcomes. The random values the source draws are explicit inputs:

- the direction and state indices of a new car;
- the floor in [1, 10] of each pooled car.

Each set of these inputs is a `Draw`.

Modules, leaf first:

- `Int32` (int32.dfy): two's-complement wrap-around of C#'s unchecked `int`.
- `ElevatorConstants` (elevator.dfy): the two constants and both enumerations.
- `Elevators` (elevator.dfy): the car and its construction. It also defines `Valid` (the floor is non-negative and the
  occupancy is between 0 and capacity) and `Coherent` (stationary exactly when
  idle).
- `Repository` (repository.dfy): `MoveToFloor`, `AddPassengers`,
  `MoveElevatorToUserAndDestination` and `GetElevators`.
- `Dispatcher` (dispatcher.dfy): the filter, the stable ordering by distance,
  the first-or-none step, and an independent scan that they are proved to
  agree with.
- `Service` (service.dfy): `CallElevator` and what a call does and does not do.
- `Unchecked` (unchecked.dfy): the two repository operations and the
  dispatcher's ordering key with 32-bit wrap-around, as C# evaluates them by
  default (see Findings).

Behaviour of the code worth knowing before reading the model:

- **Which car moves.** The service moves the repository's own car. The
  dispatched car supplies only its id, for a log message. The dispatcher's pool
  is generated fresh for every call and is unrelated to the repository's car.
- **Floor bounds.** No operation consults TotalFloors (15). `MoveToFloor`
  accepts any non-negative floor, and the service refuses only floors above 10.
- **Coherence.** Stationary ⟺ Idle does not hold at construction, because a
  fresh car draws its direction and its state independently. After a car has
  travelled, it holds.
- **Test expectations.** The unit tests expect the service to refuse floor 0
  and to refuse 15 passengers with an error. The code does neither: floor 0
  goes ahead, and 15 passengers produce "no elevator available".
- **Interface mismatch.** The repository interface declares a one-argument
  `MoveElevatorToUserDestinationAsync`. The repository implements only the
  two-argument `MoveElevatorToUserAndDestinationAsync`, and the model follows
  the implementation.

## Model

| member | source | states |
|---|---|---|
| Elevators.New | DVTElevatorChallengeTest.Core/Models/Elevator.cs:5-27 | A fresh car keeps the id it was given. It starts on floor 0 with no passengers. Its direction and state are whatever the two random indices pick. |
| Elevators.EveryValueDrawable | DVTElevatorChallengeTest.Core/Models/ElevatorConstants.cs:10-21 | Every direction (Stationary, Up, Down) and every state (Moving, Idle) is picked by some in-range random index. |
| Elevators.NewIsValid | DVTElevatorChallengeTest.Core/Models/Elevator.cs:8-13 | A fresh car is within physical bounds: floor 0, and occupancy between 0 and the capacity of 10. |
| Elevators.NewCoherentOnlyByChance | DVTElevatorChallengeTest.Core/Models/Elevator.cs:9-10 | A fresh car is "stationary iff idle" only when the two independent draws agree. An idle car heading Up is possible. |
| Repository.Departing | DVTElevatorChallengeTest.Infrastructure/Repositories/ElevatorRepository.cs:65-66 | While the travel delay is pending, the car is Moving. Its direction is Up exactly when the target is above it and Down exactly when the target is below. No other field changes. |
| Repository.Settle | DVTElevatorChallengeTest.Infrastructure/Repositories/ElevatorRepository.cs:75-79 | The cleanup on every exit leaves the car Idle, Stationary and coherent, and touches only those two fields. |
| Repository.MoveToFloor | DVTElevatorChallengeTest.Infrastructure/Repositories/ElevatorRepository.cs:57-80 | The move throws ArgumentOutOfRange("floor") exactly for a negative floor, and the car is then untouched. The current floor is a no-op that keeps state and direction. Any other floor, with no upper bound, is reached Idle and Stationary after 1000 ms per floor of distance. Id and occupancy never change. |
| Repository.AddPassengers | DVTElevatorChallengeTest.Infrastructure/Repositories/ElevatorRepository.cs:37-49 | A non-positive count throws ArgumentOutOfRange("passengers") and changes nothing. Otherwise the result is true exactly when the passengers fit. The occupancy rises by exactly that count on true and is unchanged on false. Nothing but the occupancy ever changes. |
| Repository.MoveElevatorToUserAndDestination | DVTElevatorChallengeTest.Infrastructure/Repositories/ElevatorRepository.cs:88-97 | A negative pickup floor aborts before boarding, leaves the car as it was and takes no time. Otherwise one passenger boards unless the car is full, and the boarding result is ignored. A negative destination aborts with the car left at the pickup floor. Every abort is ArgumentOutOfRange("floor"). If either leg travels, the car ends Idle and Stationary; if neither does, it keeps its state and direction. Otherwise the elapsed time is the sum of the two legs plus one boarding delay. |
| Repository.GetElevators | DVTElevatorChallengeTest.Infrastructure/Repositories/ElevatorRepository.cs:22-29 | The pool has exactly `count` cars, with ids 1..count in order. Each car is empty, within bounds, and on its drawn floor in [1, 10] with its drawn direction and state. A negative count throws. |
| Repository.MoveToFloorPreservesValid | DVTElevatorChallengeTest.Infrastructure/Repositories/ElevatorRepository.cs:57-80 | Every move, whatever its floor argument, leaves a car that was within bounds still within bounds. |
| Repository.MoveToFloorCoherence | DVTElevatorChallengeTest.Infrastructure/Repositories/ElevatorRepository.cs:62-79 | A move that changes the car leaves it coherent. A move keeps an already coherent car coherent. |
| Repository.MoveToFloorIdempotent | DVTElevatorChallengeTest.Infrastructure/Repositories/ElevatorRepository.cs:62-63 | Repeating a move to the floor just reached changes nothing and takes no time. |
| Repository.MoveViaCostsNoLess | DVTElevatorChallengeTest.Infrastructure/Repositories/ElevatorRepository.cs:70-71 | Going via an intermediate floor ends on the same floor as going direct and never takes less time. It costs no extra time exactly when the intermediate floor lies between start and target. |
| Repository.AddPassengersPreservesValid | DVTElevatorChallengeTest.Infrastructure/Repositories/ElevatorRepository.cs:44-48 | Boarding never pushes the occupancy past the capacity or below zero. |
| Repository.MoveElevatorToUserAndDestinationPreservesValid | DVTElevatorChallengeTest.Infrastructure/Repositories/ElevatorRepository.cs:88-97 | The pickup sequence keeps the car within bounds. |
| Repository.GetElevatorsIdsIncrease | DVTElevatorChallengeTest.Infrastructure/Repositories/ElevatorRepository.cs:25-26 | Ids in a generated pool strictly increase with position, so they are distinct and pool order is id order. |
| Dispatcher.Available | DVTElevatorChallengeTest.Application/Services/ElevatorDispatcher.cs:14 | The filtered cars are exactly the pool's cars that are not moving and have room for the passengers. |
| Dispatcher.AvailableKeepsOrder | DVTElevatorChallengeTest.Application/Services/ElevatorDispatcher.cs:14 | Filtering two pieces of a pool and joining the results equals filtering the whole pool. So the filter keeps pool order and multiplicity and drops only ineligible cars. |
| Dispatcher.Insert | DVTElevatorChallengeTest.Application/Services/ElevatorDispatcher.cs:15 | Inserting adds exactly one car. The new car goes first when it is no farther than the current first car, which is what makes the sort stable. |
| Dispatcher.InsertKeepsOrder | DVTElevatorChallengeTest.Application/Services/ElevatorDispatcher.cs:15 | Inserting into a sequence ordered by distance keeps it ordered. |
| Dispatcher.OrderByDistance | DVTElevatorChallengeTest.Application/Services/ElevatorDispatcher.cs:15 | The ordering is a permutation of its input, sorted by non-decreasing distance to the requested floor. |
| Dispatcher.MembersAreOrdered | DVTElevatorChallengeTest.Application/Services/ElevatorDispatcher.cs:15 | Ordering neither adds nor drops a car. |
| Dispatcher.Dispatch | DVTElevatorChallengeTest.Application/Services/ElevatorDispatcher.cs:13-18 | The result is none exactly when no pool car is idle with room. Any returned car is in the pool, idle, has room, and is at least as near the requested floor as every eligible car. |
| Dispatcher.NearestIndex | DVTElevatorChallengeTest.Application/Services/ElevatorDispatcher.cs:13-18 | This independent scan picks an eligible car at least as near as every eligible car, and strictly nearer than every eligible car before it in the pool. It picks none exactly when none is eligible. |
| Dispatcher.DispatchIsEarliestNearest | DVTElevatorChallengeTest.Application/Services/ElevatorDispatcher.cs:15-18 | Whenever the scan finds a car, filter, stable sort and first-or-none return exactly that car, so ties go to the earliest car in pool order. |
| Dispatcher.DispatchAsync | DVTElevatorChallengeTest.Application/Services/ElevatorDispatcher.cs:11-19 | The dispatcher consults a fresh pool of five cars. Any car it returns has an id in 1..5, is empty, and is eligible. |
| Dispatcher.DispatchAsyncFindsIdleCar | DVTElevatorChallengeTest.Application/Services/ElevatorDispatcher.cs:13-14 | Over a generated pool, a car is found exactly when the passengers fit an empty car and at least one of the five drew Idle. |
| Dispatcher.DispatchAsyncPrefersLowestId | DVTElevatorChallengeTest.Application/Services/ElevatorDispatcher.cs:15-18 | Over a generated pool, every other eligible car is either farther away or has a higher id. |
| Service.CallElevator | DVTElevatorChallengeTest.Application/Services/ElevatorService.cs:35-67 | Floors above 10 return at once with no effect. If dispatch finds no car, nothing changes. Otherwise the repository's car moves to the floor first and then boards. The call reports boarding exactly when the floor is in [0, 10], a car was dispatched, and the passengers are positive and fit. It reports a full car exactly when such a dispatched call has positive passengers that do not fit; that car has still moved and keeps its occupancy. It reports a caught error exactly when a car was dispatched and the floor is negative or the passengers are not positive, and the error is ArgumentOutOfRange naming "floor" or "passengers" respectively. |
| Service.CallElevatorPreservesValid | DVTElevatorChallengeTest.Application/Services/ElevatorService.cs:45-57 | A call keeps the repository's car within bounds. |
| Service.CallElevatorPreservesCoherence | DVTElevatorChallengeTest.Application/Services/ElevatorService.cs:45-57 | A call keeps a coherent car coherent. |
| Service.CallElevatorIgnoresDispatchedCar | DVTElevatorChallengeTest.Application/Services/ElevatorService.cs:45-50 | The repository's car ends the same whichever pool car was dispatched. Only the existence of a candidate matters. |
| Service.NonPositivePassengersStillMove | DVTElevatorChallengeTest.Application/Services/ElevatorService.cs:47-66 | With zero or negative passengers and an idle pool car, the car still moves to the floor. The boarding error is then caught, and the occupancy is unchanged. |
| Service.FloorZeroIsNotRefused | DVTElevatorChallengeTest.Application/Services/ElevatorService.cs:39 | The floor guard bounds floors only from above, so floor 0 is never refused. |
| Service.TooManyPassengersFindNoElevator | DVTElevatorChallengeTest.Application/Services/ElevatorService.cs:45-61 | More than 10 passengers is not refused as such. No pool car qualifies, so the call reports that no elevator is available and leaves the car alone. |
| Service.UpperFloorsCannotBeCalled | DVTElevatorChallengeTest.Application/Services/ElevatorService.cs:39-43 | Floors 11 to 15 exist in the building but every call to them is refused without effect. |
| Unchecked.AddPassengersAsWritten | DVTElevatorChallengeTest.Infrastructure/Repositories/ElevatorRepository.cs:37-49 | With 32-bit wrapping, boarding is accepted exactly when the wrapped sum is at most the capacity. On acceptance the occupancy becomes the wrapped sum, and on refusal or a throw the car is unchanged. Nothing but the occupancy changes, and it stays a 32-bit value. |
| Unchecked.AddPassengersAgreesWithoutOverflow | DVTElevatorChallengeTest.Infrastructure/Repositories/ElevatorRepository.cs:44-47 | Whenever the exact sum fits in 32 bits, the wrapping boarding and the model's boarding coincide. |
| Unchecked.AddPassengersOverflowAdmitsAnyone | DVTElevatorChallengeTest.Infrastructure/Repositories/ElevatorRepository.cs:44-47 | One passenger aboard plus int.MaxValue more is accepted by the wrapping code and leaves occupancy int.MinValue. The intended boarding refuses it. |
| Unchecked.Abs32 | DVTElevatorChallengeTest.Infrastructure/Repositories/ElevatorRepository.cs:70 | Math.Abs returns the magnitude of every 32-bit value except int.MinValue, for which it throws. |
| Unchecked.MoveToFloorAsWritten | DVTElevatorChallengeTest.Infrastructure/Repositories/ElevatorRepository.cs:57-80 | With 32-bit wrapping, a move throws exactly in three cases, with no time elapsed. A negative floor throws ArgumentOutOfRange("floor") and leaves the car untouched. A difference that wraps to int.MinValue throws OverflowException. A wrapped travel time below -1 throws ArgumentOutOfRange("millisecondsDelay"). In the last two cases the cleanup leaves the car Idle and Stationary on its old floor. Otherwise the car reaches the floor after the wrapped travel time. |
| Unchecked.WrappedTravelTimeIsNotInfinite | DVTElevatorChallengeTest.Infrastructure/Repositories/ElevatorRepository.cs:70-71 | A wrapped travel time is never -1, the "wait forever" delay, because it is even. |
| Unchecked.MoveToFloorAgreesForNearbyFloors | DVTElevatorChallengeTest.Infrastructure/Repositories/ElevatorRepository.cs:57-80 | When the travel time fits in 32 bits, the wrapping move and the model's move coincide. |
| Unchecked.MoveToFloorOverflowStrandsCar | DVTElevatorChallengeTest.Infrastructure/Repositories/ElevatorRepository.cs:70-71 | A move from floor 0 to floor 3,000,000 computes a negative delay. Task.Delay throws, and the car stays on floor 0, whereas the intended move reaches the floor. |
| Unchecked.MoveToFloorFarCarCannotReturn | DVTElevatorChallengeTest.Infrastructure/Repositories/ElevatorRepository.cs:57-80 | Two moves that each fit in 32 bits take a car from floor 0 to floor 4,294,966. The move back to floor 5 then computes a negative wrapped delay, throws, and leaves the car where it is, whereas the intended move reaches floor 5. |
| Unchecked.KeyAsWritten | DVTElevatorChallengeTest.Application/Services/ElevatorDispatcher.cs:15 | The source's ordering key throws OverflowException exactly when the difference wraps to int.MinValue. Otherwise it is a non-negative 32-bit value. It equals the true distance whenever the difference fits in 32 bits. |
| Unchecked.KeyOverflowMisordersCars | DVTElevatorChallengeTest.Application/Services/ElevatorDispatcher.cs:15 | At requested floor -2147483640, the car on floor 7 is truly nearer than the car on floor 10, yet its wrapped key is larger. At -2147483647 the key of a car on floor 1 throws. |

## Left out

- Logging: every `ILogger` call and its message text. The service's
  `CallOutcome` records which message branch ran. `DisplayStatusAsync` is a
  pure log projection and is not modelled.
- Real time and asynchrony: each `Task.Delay` becomes the reported elapsed
  milliseconds. The sequential model has no interruption, so the `finally`
  reset coincides with the normal exit. Only 32-bit wrap-around makes a move
  throw after departing: `Math.Abs(int.MinValue)` throws, and `Task.Delay`
  refuses a wrapped negative duration. Only `Unchecked.MoveToFloorAsWritten`
  has these exits.
- `System.Random`: its values are inputs (`Draw`, and the draw indices of
  `New`). The requirement that they are in range states what `Random.Next`
  guarantees.
- The console shell (`Program.cs`) and the input validator
  (`ElevatorCallValidator.cs`). They sit outside the core. The validator's
  carrying capacity of 15 is a separate constant from `MaxPassengers`.
- The interface declaration `MoveElevatorToUserDestinationAsync(int)`. The
  repository does not implement it.
- Dispatcher.Dispatch: computes eligibility and the distance key without
  32-bit wrap-around. Generated pools hold only empty cars, so the eligibility
  sum never wraps there. The key does wrap for requested floors near
  int.MinValue: it can rank a farther car first, or throw an OverflowException
  from `Math.Abs` (see Findings, `Unchecked.KeyAsWritten`). The model keeps
  true distances, so its "nearest" promise holds for every floor, which the
  source's does not.
- Repository.MoveElevatorToUserAndDestination: built on the unbounded
  `MoveToFloor`. When a leg's travel time overflows 32 bits, the source's leg
  throws and stops the sequence only if the wrapped delay is below -1. For
  example, from floor 0 with pickup 3,000,000 nobody boards, while the model's
  leg arrives. Otherwise the source's leg arrives after the wrapped delay
  instead of the true one: pickup 5,000,000 from floor 0 waits 705,032,704 ms.
  The pickup boarding is the unbounded `AddPassengers` too. At occupancy
  int.MaxValue the source's boarding of one passenger wraps the count to
  int.MinValue and is accepted (first Findings row), while the model leaves
  the count unchanged.
- Service.CallElevator: built on the unbounded `Dispatch` and `MoveToFloor`.
  Its clause that every caught error is an ArgumentOutOfRange holds only for
  the model. For a requested floor near int.MinValue the source's dispatcher
  can throw an OverflowException, which the service catches. For example,
  floor -2147483647 with an idle pool car on floor 1 does this, while the
  model dispatches and then catches the move's ArgumentOutOfRange("floor").
  The service also differs whenever the repository's car is more than
  2,147,483 floors from the called floor. Two moves that each fit take the car
  to floor 4,294,966, and a call to floor 5 then wraps the delay to -6,296 ms:
  the source's move throws and nobody boards, while the model moves the car and
  boards (`Unchecked.MoveToFloorFarCarCannotReturn`).
  The boarding is the unbounded `AddPassengers` as well. When the occupancy
  is within the boarded count of int.MaxValue, the source's sum wraps below
  the capacity and the boarding is accepted (first Findings row), while the
  model reports the car full. For example, occupancy int.MaxValue - 4 and a
  call for 10 passengers to floor 5 with an idle pool car: the source boards
  and the model reports `ElevatorFull`, so the full-car clause holds only for
  the model.
- Identity of cars: the source returns an object reference. The model returns
  the car's value, and pool cars are told apart by their distinct ids.

## Findings

| source | as written | input that shows it | evidently intended | confidence | as-written member | corrected member |
|---|---|---|---|---|---|---|
| DVTElevatorChallengeTest.Infrastructure/Repositories/ElevatorRepository.cs:44-47 | The capacity test `PassengerCount + passengers > MaxPassengers` and the increment wrap at 32 bits. | One passenger aboard, then `AddPassengersAsync(int.MaxValue)`: the sum wraps to int.MinValue and passes the test. The call returns true and occupancy becomes int.MinValue. | Refuse any boarding that does not fit, and keep occupancy within [0, 10]. | medium: not executed; assumes the default unchecked arithmetic | Unchecked.AddPassengersOverflowAdmitsAnyone | Repository.AddPassengers |
| DVTElevatorChallengeTest.Infrastructure/Repositories/ElevatorRepository.cs:70-71 | The travel time `Math.Abs(floor - CurrentFloor) * 1000` wraps at 32 bits, and Task.Delay throws on a negative delay. | A car on floor 0 asked to go to floor 3,000,000: the delay is negative, the move throws, and the car stays on floor 0. | Every non-negative floor is reached after a delay proportional to the distance. | low: not executed; floors that far exceed any building | Unchecked.MoveToFloorOverflowStrandsCar | Repository.MoveToFloor |
| DVTElevatorChallengeTest.Application/Services/ElevatorDispatcher.cs:15 | The ordering key `Math.Abs(e.CurrentFloor - requestedFloor)` wraps at 32 bits, and `Math.Abs(int.MinValue)` throws. | Requested floor -2147483640 with idle cars on floors 7 and 10: the wrapped keys are 2147483647 and 2147483646, so a stable ordering by key puts the farther car first and it would be dispatched; the dispatch step is inferred from the keys, not modelled as written. Requested floor -2147483647 with a car on floor 1: the key throws OverflowException. | Order cars by their true distance from the requested floor. | low: not executed; such floors are far outside any building | Unchecked.KeyOverflowMisordersCars | Dispatcher.Dispatch |

=== FILE: dispatcher.dfy ===
/** The nearest-car dispatcher: keep the cars that are idle and have room,
    order them stably by distance to the requested floor, take the first. */
module Dispatcher {
  import opened ElevatorConstants
  import opened Elevators
  import opened Repository

  datatype Option<+T> = None | Some(value: T)

  /** The number of cars the dispatcher asks the repository for. */
  const PoolSize: nat := 5

  /** A car can answer a call when it is not moving and the passengers fit. */
  predicate Eligible(e: Elevator, passengers: int) {
    !e.IsMoving() && e.passengerCount + passengers <= e.MaxPassengers()
  }

  /** The ordering key: how many floors the car is from the requested floor. */
  function Key(e: Elevator, floor: int): nat {
    Distance(e.currentFloor, floor)
  }

  predicate SortedByKey(s: seq<Elevator>, floor: int) {
    forall i, j :: 0 <= i < j < |s| ==> Key(s[i], floor) <= Key(s[j], floor)
  }

  /** The filter step: the eligible cars, in pool order. */
  function Available(pool: seq<Elevator>, passengers: int): (r: seq<Elevator>)
    ensures |r| <= |pool|
    ensures forall e :: e in r <==> e in pool && Eligible(e, passengers)
  {
    if |pool| == 0 then []
    else if Eligible(pool[0], passengers) then [pool[0]] + Available(pool[1..], passengers)
    else Available(pool[1..], passengers)
  }

  /** The filter keeps pool order and multiplicity: filtering two pieces of a
      pool and joining the results is filtering the whole pool. */
  lemma {:induction false} AvailableKeepsOrder(a: seq<Elevator>, b: seq<Elevator>, passengers: int)
    ensures Available(a + b, passengers) == Available(a, passengers) + Available(b, passengers)
  {
    if |a| > 0 {
      assert (a + b)[0] == a[0] && (a + b)[1..] == a[1..] + b;
      AvailableKeepsOrder(a[1..], b, passengers);
    } else {
      assert a + b == b;
    }
  }

  /** Places `x` before the first car at least as far away as `x`, so that `x`
      precedes every car of equal key already in `s`. */
  function Insert(x: Elevator, s: seq<Elevator>, floor: int): (r: seq<Elevator>)
    ensures multiset(r) == multiset(s) + multiset{x}
    ensures |r| == |s| + 1
    ensures r[0] == (if |s| == 0 || Key(x, floor) <= Key(s[0], floor) then x else s[0])
  {
    if |s| == 0 || Key(x, floor) <= Key(s[0], floor) then [x] + s
    else
      assert s == [s[0]] + s[1..];
      [s[0]] + Insert(x, s[1..], floor)
  }

  /** Inserting into an ordered sequence keeps it ordered. */
  lemma {:induction false} InsertKeepsOrder(x: Elevator, s: seq<Elevator>, floor: int)
    requires SortedByKey(s, floor)
    ensures SortedByKey(Insert(x, s, floor), floor)
  {
    var r := Insert(x, s, floor);
    if |s| == 0 || Key(x, floor) <= Key(s[0], floor) {
      forall i, j | 0 <= i < j < |r|
        ensures Key(r[i], floor) <= Key(r[j], floor)
      {
        assert r[j] == s[j - 1];
        if i > 0 {
          assert r[i] == s[i - 1];
        }
      }
    } else {
      var rest := Insert(x, s[1..], floor);
      InsertKeepsOrder(x, s[1..], floor);
      assert r == [s[0]] + rest;
      forall i, j | 0 <= i < j < |r|
        ensures Key(r[i], floor) <= Key(r[j], floor)
      {
        assert r[j] == rest[j - 1];
        if i > 0 {
          assert r[i] == rest[i - 1];
        } else if j == 1 {
          assert rest[0] == x || rest[0] == s[1];
        } else {
          assert Key(r[0], floor) <= Key(rest[0], floor) by {
            assert rest[0] == x || rest[0] == s[1];
          }
        }
      }
    }
  }

  /** The ordering step: a stable sort of the cars by distance. */
  function OrderByDistance(s: seq<Elevator>, floor: int): (r: seq<Elevator>)
    ensures multiset(r) == multiset(s)
    ensures |r| == |s|
    ensures SortedByKey(r, floor)
  {
    if |s| == 0 then []
    else
      assert s == [s[0]] + s[1..];
      var rest := OrderByDistance(s[1..], floor);
      InsertKeepsOrder(s[0], rest, floor);
      Insert(s[0], rest, floor)
  }

  /** DispatchAsync over a given pool: the first car of the ordered eligible
      cars, or none. The pool itself is only read. */
  function Dispatch(pool: seq<Elevator>, floor: int, passengers: int): (r: Option<Elevator>)
    ensures r.None? <==> forall e :: e in pool ==> !Eligible(e, passengers)
    ensures r.Some? ==>
      && r.value in pool
      && Eligible(r.value, passengers)
      && forall e :: e in pool && Eligible(e, passengers) ==> Key(r.value, floor) <= Key(e, floor)
  {
    var candidates := Available(pool, passengers);
    var ordered := OrderByDistance(candidates, floor);
    MembersAreOrdered(candidates, floor);
    if |ordered| == 0 then
      None
    else
      assert ordered[0] in candidates;
      Some(ordered[0])
  }

  /** Ordering neither adds nor drops a car. */
  lemma MembersAreOrdered(s: seq<Elevator>, floor: int)
    ensures forall e :: e in s <==> e in OrderByDistance(s, floor)
  {
    var r := OrderByDistance(s, floor);
    forall e
      ensures e in s <==> e in r
    {
      assert e in s <==> e in multiset(s);
      assert e in r <==> e in multiset(r);
    }
  }

  /** An independent reference: the index a single left-to-right scan picks,
      namely the first eligible car at the least distance. */
  function NearestIndex(pool: seq<Elevator>, floor: int, passengers: int): (r: Option<nat>)
    ensures r.None? <==> forall i :: 0 <= i < |pool| ==> !Eligible(pool[i], passengers)
    ensures r.Some? ==>
      && r.value < |pool|
      && Eligible(pool[r.value], passengers)
      && (forall j :: 0 <= j < |pool| && Eligible(pool[j], passengers) ==>
            Key(pool[r.value], floor) <= Key(pool[j], floor))
      && (forall j :: 0 <= j < r.value && Eligible(pool[j], passengers) ==>
            Key(pool[r.value], floor) < Key(pool[j], floor))
  {
    if |pool| == 0 then None
    else
      var rest := NearestIndex(pool[1..], floor, passengers);
      if Eligible(pool[0], passengers) && (rest.None? || Key(pool[0], floor) <= Key(pool[1 + rest.value], floor)) then
        Some(0)
      else if rest.None? then None
      else Some(1 + rest.value)
  }

  /** The sort-based dispatcher picks the car the scan picks: ties go to the
      car that comes first in the pool, because the ordering is stable. (Both
      find nothing exactly when no car is eligible, by their contracts.) */
  lemma {:induction false} DispatchIsEarliestNearest(pool: seq<Elevator>, floor: int, passengers: int)
    ensures NearestIndex(pool, floor, passengers).Some? ==>
      Dispatch(pool, floor, passengers) == Some(pool[NearestIndex(pool, floor, passengers).value])
  {
    if |pool| > 0 {
      DispatchIsEarliestNearest(pool[1..], floor, passengers);
      var tail := Available(pool[1..], passengers);
      if Eligible(pool[0], passengers) {
        var candidates := Available(pool, passengers);
        assert candidates[0] == pool[0] && candidates[1..] == tail;
      }
    }
  }

  /** DispatchAsync: dispatch over a freshly generated pool of five cars. */
  function DispatchAsync(draws: seq<Draw>, floor: int, passengers: int): (r: Option<Elevator>)
    requires PoolSize <= |draws| && DrawsInRange(draws)
    ensures r.Some? ==> 1 <= r.value.id <= PoolSize && r.value.passengerCount == 0 && Eligible(r.value, passengers)
  {
    Dispatch(GetElevators(PoolSize, draws).value, floor, passengers)
  }

  /** Over a generated pool, whose cars are all empty, a car is found exactly
      when the passengers fit an empty car and one of the five drew Idle. */
  lemma DispatchAsyncFindsIdleCar(draws: seq<Draw>, floor: int, passengers: int)
    requires PoolSize <= |draws| && DrawsInRange(draws)
    ensures DispatchAsync(draws, floor, passengers).Some? <==>
      passengers <= MaxPassengers && exists i :: 0 <= i < PoolSize && States[draws[i].state] == Idle
  {
    var pool := GetElevators(PoolSize, draws).value;
    var r := Dispatch(pool, floor, passengers);
    if r.Some? {
      var i :| 0 <= i < |pool| && pool[i] == r.value;
      assert States[draws[i].state] == Idle;
    }
    if passengers <= MaxPassengers && exists i :: 0 <= i < PoolSize && States[draws[i].state] == Idle {
      var i :| 0 <= i < PoolSize && States[draws[i].state] == Idle;
      assert pool[i] in pool && Eligible(pool[i], passengers);
    }
  }

  /** Over a generated pool, ties go to the lowest identifier. */
  lemma DispatchAsyncPrefersLowestId(draws: seq<Draw>, floor: int, passengers: int)
    requires PoolSize <= |draws| && DrawsInRange(draws)
    requires DispatchAsync(draws, floor, passengers).Some?
    ensures var chosen := DispatchAsync(draws, floor, passengers).value;
      forall e :: e in GetElevators(PoolSize, draws).value && Eligible(e, passengers) ==>
        Key(chosen, floor) < Key(e, floor) || (Key(chosen, floor) == Key(e, floor) && chosen.id <= e.id)
  {
    var pool := GetElevators(PoolSize, draws).value;
    DispatchIsEarliestNearest(pool, floor, passengers);
    var k := NearestIndex(pool, floor, passengers).value;
    forall e | e in pool && Eligible(e, passengers)
      ensures Key(pool[k], floor) < Key(e, floor) || (Key(pool[k], floor) == Key(e, floor) && pool[k].id <= e.id)
    {
      var j :| 0 <= j < |pool| && pool[j] == e;
      if j < k {
        assert Key(pool[k], floor) < Key(pool[j], floor);
      }
    }
  }
}

=== FILE: elevator.dfy ===
/** The constants and the two enumerations the car is built from. */
module ElevatorConstants {

  /** Capacity of every car. */
  const MaxPassengers: int := 10

  /** Number of floors in the building. No operation consults it. */
  const TotalFloors: int := 15

  datatype Direction = Stationary | Up | Down

  datatype State = Moving | Idle

  /** The values of each enumeration in declaration order, the order in which a
      random index picks one of them. */
  const Directions: seq<Direction> := [Stationary, Up, Down]
  const States: seq<State> := [Moving, Idle]
}

/** The elevator car: its fields, construction and the invariants a car may keep. */
module Elevators {
  import opened ElevatorConstants

  /** A car. Its capacity is not a field: it is the same constant for every car. */
  datatype Elevator = Elevator(
    id: int,
    currentFloor: int,
    direction: Direction,
    state: State,
    passengerCount: int)
  {
    predicate IsMoving() {
      state == Moving
    }

    function MaxPassengers(): int {
      ElevatorConstants.MaxPassengers
    }
  }

  /** The fresh car with identifier `id`. Direction and state are picked by two
      independent random indices `dirDraw` and `stateDraw`. */
  function New(id: int, dirDraw: nat, stateDraw: nat): (e: Elevator)
    requires dirDraw < |Directions| && stateDraw < |States|
    ensures e.id == id && e.currentFloor == 0 && e.passengerCount == 0
    ensures e.direction == Directions[dirDraw] && e.state == States[stateDraw]
  {
    Elevator(id, 0, Directions[dirDraw], States[stateDraw], 0)
  }

  /** Physical bounds: a car is on a non-negative floor with an occupancy
      between zero and its capacity. */
  predicate Valid(e: Elevator) {
    0 <= e.currentFloor && 0 <= e.passengerCount <= e.MaxPassengers()
  }

  /** A car is stationary exactly when it is idle. */
  predicate Coherent(e: Elevator) {
    e.direction == Stationary <==> e.state == Idle
  }

  /** Every value of each enumeration can be drawn. */
  lemma EveryValueDrawable(d: Direction, s: State)
    ensures exists k :: 0 <= k < |Directions| && Directions[k] == d
    ensures exists k :: 0 <= k < |States| && States[k] == s
  {
    var kd := match d case Stationary => 0 case Up => 1 case Down => 2;
    assert Directions[kd] == d;
    var ks := match s case Moving => 0 case Idle => 1;
    assert States[ks] == s;
  }

  /** A fresh car is always within bounds. */
  lemma NewIsValid(id: int, dirDraw: nat, stateDraw: nat)
    requires dirDraw < |Directions| && stateDraw < |States|
    ensures Valid(New(id, dirDraw, stateDraw))
  {
  }

  /** A fresh car is coherent exactly when its two independent draws happen to
      agree; an idle car heading up is one that does not. */
  lemma NewCoherentOnlyByChance(id: int, dirDraw: nat, stateDraw: nat)
    requires dirDraw < |Directions| && stateDraw < |States|
    ensures Coherent(New(id, dirDraw, stateDraw)) <==> (dirDraw == 0) == (stateDraw == 1)
    ensures !Coherent(New(id, 1, 1))
  {
  }
}

=== FILE: int32.dfy ===
/** Two's-complement 32-bit integers, as C#'s `int` behaves in an unchecked context. */
module Int32 {

  const Min: int := -0x8000_0000
  const Max: int := 0x7FFF_FFFF
  const Modulus: int := 0x1_0000_0000

  predicate InRange(x: int) {
    Min <= x <= Max
  }

  /** The value an unchecked 32-bit operation leaves when its exact result is `x`:
      the one representable value congruent to `x` modulo 2^32. */
  function Wrap(x: int): (r: int)
    ensures InRange(r)
    ensures (r - x) % Modulus == 0
    ensures InRange(x) ==> r == x
  {
    (x - Min) % Modulus + Min
  }

  /** Wrapping never changes parity, because the modulus is even. */
  lemma WrapKeepsParity(x: int)
    ensures Wrap(x) % 2 == x % 2
  {
    var k := (Wrap(x) - x) / Modulus;
    assert Wrap(x) - x == k * Modulus;
    assert Wrap(x) == x + 2 * (k * 0x8000_0000);
  }
}

=== FILE: repository.dfy ===
/** The movement engine: the operations of the repository on the one car it
    owns, and the generator of elevator pools. Awaited delays become the
    `elapsed` milliseconds an operation reports; thrown exceptions become
    `Threw` outcomes. */
module Repository {
  import opened ElevatorConstants
  import opened Elevators

  /** ArgumentOutOfRangeException, carrying the offending parameter's name,
      and OverflowException. */
  datatype Error = ArgumentOutOfRange(paramName: string) | Overflow

  datatype Outcome<+T> = Returned(value: T) | Threw(error: Error)

  /** What an operation leaves behind: how it ended, the car afterwards, and how
      long it waited. */
  datatype Effect<+T> = Effect(outcome: Outcome<T>, car: Elevator, elapsed: nat)

  /** Milliseconds of travel per floor. */
  const MillisPerFloor: nat := 1000

  /** Milliseconds a boarding takes, accepted or not. */
  const BoardingDelay: nat := 100

  function Distance(from: int, to: int): nat {
    if from <= to then to - from else from - to
  }

  /** The car while the travel delay is pending: moving, and heading towards
      `floor`. */
  function Departing(e: Elevator, floor: int): (m: Elevator)
    requires floor != e.currentFloor
    ensures m.IsMoving() && m.direction != Stationary
    ensures m.direction == Up <==> floor > e.currentFloor
    ensures m.direction == Down <==> floor < e.currentFloor
    ensures m.(state := e.state, direction := e.direction) == e
  {
    e.(state := Moving, direction := if floor > e.currentFloor then Up else Down)
  }

  /** The cleanup that runs however a move ends: idle and stationary. */
  function Settle(e: Elevator): (s: Elevator)
    ensures !s.IsMoving() && s.direction == Stationary && Coherent(s)
    ensures s.(state := e.state, direction := e.direction) == e
  {
    e.(state := Idle, direction := Stationary)
  }

  /** MoveToFloorAsync. A negative floor is refused and the current floor is a
      no-op that keeps state and direction; any other floor, however high, is
      reached after a wait proportional to the distance. */
  function MoveToFloor(e: Elevator, floor: int): (r: Effect<()>)
    ensures r.outcome.Threw? <==> floor < 0
    ensures floor < 0 ==> r.outcome.error == ArgumentOutOfRange("floor") && r.car == e && r.elapsed == 0
    ensures floor == e.currentFloor ==> r.car == e && r.elapsed == 0
    ensures floor >= 0 ==> r.car.currentFloor == floor
    ensures floor >= 0 && floor != e.currentFloor ==>
      && r.car == Settle(Departing(e, floor)).(currentFloor := floor)
      && r.elapsed == Distance(e.currentFloor, floor) * MillisPerFloor
      && r.elapsed > 0
    ensures r.car.id == e.id && r.car.passengerCount == e.passengerCount
  {
    if floor < 0 then
      Effect(Threw(ArgumentOutOfRange("floor")), e, 0)
    else if floor == e.currentFloor then
      Effect(Returned(()), e, 0)
    else
      var moving := Departing(e, floor);
      var travelTime := Distance(moving.currentFloor, floor) * MillisPerFloor;
      var arrived := moving.(currentFloor := floor);
      Effect(Returned(()), Settle(arrived), travelTime)
  }

  /** AddPassengersAsync. A non-positive count is refused; otherwise the
      passengers board exactly when they fit, and nothing but the occupancy
      ever changes. */
  function AddPassengers(e: Elevator, passengers: int): (r: Effect<bool>)
    ensures r.outcome.Threw? <==> passengers <= 0
    ensures passengers <= 0 ==> r.outcome.error == ArgumentOutOfRange("passengers") && r.car == e && r.elapsed == 0
    ensures passengers > 0 ==>
      && (r.outcome == Returned(true) <==> e.passengerCount + passengers <= e.MaxPassengers())
      && r.elapsed == BoardingDelay
    ensures r.car.passengerCount == e.passengerCount + (if r.outcome == Returned(true) then passengers else 0)
    ensures r.car == e.(passengerCount := r.car.passengerCount)
  {
    if passengers <= 0 then
      Effect(Threw(ArgumentOutOfRange("passengers")), e, 0)
    else if e.passengerCount + passengers > e.MaxPassengers() then
      Effect(Returned(false), e, BoardingDelay)
    else
      Effect(Returned(true), e.(passengerCount := e.passengerCount + passengers), BoardingDelay)
  }

  /** The fixed number of passengers boarded on a pickup. */
  const PickupPassengers: int := 1

  /** MoveElevatorToUserAndDestinationAsync: move to the user, board one
      passenger (its result ignored), move to the destination. A thrown leg
      ends the sequence. Boarding a single passenger never throws. */
  function MoveElevatorToUserAndDestination(e: Elevator, userFloor: int, destinationFloor: int): (r: Effect<()>)
    ensures r.car.id == e.id
    ensures r.outcome.Threw? <==> userFloor < 0 || destinationFloor < 0
    ensures r.outcome.Threw? ==> r.outcome.error == ArgumentOutOfRange("floor")
    ensures userFloor >= 0 && (userFloor != e.currentFloor || (destinationFloor >= 0 && destinationFloor != userFloor)) ==>
      !r.car.IsMoving() && r.car.direction == Stationary
    ensures userFloor < 0 || (userFloor == e.currentFloor && (destinationFloor < 0 || destinationFloor == userFloor)) ==>
      r.car.state == e.state && r.car.direction == e.direction
    ensures userFloor < 0 ==> r == Effect(Threw(ArgumentOutOfRange("floor")), e, 0)
    ensures userFloor >= 0 ==>
      r.car.passengerCount == e.passengerCount + (if e.passengerCount < e.MaxPassengers() then 1 else 0)
    ensures userFloor >= 0 ==> r.car.currentFloor == if destinationFloor < 0 then userFloor else destinationFloor
    ensures userFloor >= 0 ==>
      r.elapsed == (Distance(e.currentFloor, userFloor) + (if destinationFloor < 0 then 0 else Distance(userFloor, destinationFloor))) * MillisPerFloor + BoardingDelay
  {
    var toUser := MoveToFloor(e, userFloor);
    if toUser.outcome.Threw? then toUser
    else
      var boarding := AddPassengers(toUser.car, PickupPassengers);
      var toDestination := MoveToFloor(boarding.car, destinationFloor);
      Effect(toDestination.outcome, toDestination.car, toUser.elapsed + boarding.elapsed + toDestination.elapsed)
  }

  /** The three random values drawn for one car of a generated pool: its floor
      and indices into the two enumerations. */
  datatype Draw = Draw(floor: int, direction: nat, state: nat)

  /** What the random source can produce: a floor in [1, 10] and in-range indices. */
  predicate DrawInRange(d: Draw) {
    1 <= d.floor <= 10 && d.direction < |Directions| && d.state < |States|
  }

  predicate DrawsInRange(draws: seq<Draw>) {
    forall i :: 0 <= i < |draws| ==> DrawInRange(draws[i])
  }

  /** GetElevatorsAsync: `count` fresh cars numbered from 1, each on a random
      floor between 1 and 10 with random direction and state, all empty. A
      negative count is refused by the range it enumerates. */
  function GetElevators(count: int, draws: seq<Draw>): (r: Outcome<seq<Elevator>>)
    requires count <= |draws| && DrawsInRange(draws)
    ensures r.Threw? <==> count < 0
    ensures r.Returned? ==> |r.value| == count
    ensures r.Returned? ==> forall i :: 0 <= i < |r.value| ==>
      && r.value[i].id == i + 1
      && r.value[i].currentFloor == draws[i].floor
      && r.value[i].direction == Directions[draws[i].direction]
      && r.value[i].state == States[draws[i].state]
      && 1 <= r.value[i].currentFloor <= 10
      && r.value[i].passengerCount == 0
      && Valid(r.value[i])
  {
    if count < 0 then
      Threw(ArgumentOutOfRange("count"))
    else
      Returned(seq(count, i requires 0 <= i < count =>
        var d := draws[i];
        New(i + 1, d.direction, d.state).(currentFloor := d.floor)))
  }

  /** Every move leaves the car within bounds. */
  lemma MoveToFloorPreservesValid(e: Elevator, floor: int)
    requires Valid(e)
    ensures Valid(MoveToFloor(e, floor).car)
  {
  }

  /** A move that travels leaves the car coherent; one that does not leaves
      coherence as it was. */
  lemma MoveToFloorCoherence(e: Elevator, floor: int)
    ensures MoveToFloor(e, floor).car != e ==> Coherent(MoveToFloor(e, floor).car)
    ensures Coherent(e) ==> Coherent(MoveToFloor(e, floor).car)
  {
  }

  /** Moving to the floor just reached does nothing more. */
  lemma MoveToFloorIdempotent(e: Elevator, floor: int)
    ensures var first := MoveToFloor(e, floor);
            MoveToFloor(first.car, floor) == if floor < 0 then first else Effect(Returned(()), first.car, 0)
  {
  }

  /** Stopping at an intermediate floor never saves time, and costs nothing
      extra exactly when that floor lies between the start and the target. */
  lemma MoveViaCostsNoLess(e: Elevator, via: int, floor: int)
    requires via >= 0 && floor >= 0
    ensures var first := MoveToFloor(e, via);
            var second := MoveToFloor(first.car, floor);
            var direct := MoveToFloor(e, floor);
            && second.car.currentFloor == direct.car.currentFloor
            && first.elapsed + second.elapsed >= direct.elapsed
            && (first.elapsed + second.elapsed == direct.elapsed <==>
                  (e.currentFloor <= via <= floor || floor <= via <= e.currentFloor))
  {
  }

  /** Boarding keeps the occupancy within capacity. */
  lemma AddPassengersPreservesValid(e: Elevator, passengers: int)
    requires Valid(e)
    ensures Valid(AddPassengers(e, passengers).car)
  {
  }

  /** The pickup sequence keeps the car within bounds. */
  lemma MoveElevatorToUserAndDestinationPreservesValid(e: Elevator, userFloor: int, destinationFloor: int)
    requires Valid(e)
    ensures Valid(MoveElevatorToUserAndDestination(e, userFloor, destinationFloor).car)
  {
  }

  /** Identifiers in a generated pool are distinct, so pool order is id order. */
  lemma GetElevatorsIdsIncrease(count: int, draws: seq<Draw>, i: int, j: int)
    requires count <= |draws| && DrawsInRange(draws)
    requires GetElevators(count, draws).Returned?
    requires 0 <= i < j < count
    ensures GetElevators(count, draws).value[i].id < GetElevators(count, draws).value[j].id
  {
  }
}

=== FILE: service.dfy ===
/** CallElevatorAsync: the floor guard, then dispatch over a fresh pool, then a
    move and a boarding of the repository's own car. Every exception is caught;
    the outcome records which branch ran. */
module Service {
  import opened ElevatorConstants
  import opened Elevators
  import opened Repository
  import opened Dispatcher

  /** The highest floor a call may name. */
  const HighestCallableFloor: int := 10

  /** The branch a call took, one per message it logs. */
  datatype CallOutcome =
    | FloorTooHigh
    | NoElevatorAvailable
    | Boarded(dispatchedId: int)
    | ElevatorFull
    | Caught(error: Error)

  datatype CallReport = CallReport(outcome: CallOutcome, car: Elevator, elapsed: nat)

  /** A call for `passengers` at `floor`, acting on the repository's car `car`;
      `draws` is what the random source supplies to the dispatcher's pool. The
      dispatched car contributes nothing but its identifier. */
  function CallElevator(car: Elevator, draws: seq<Draw>, floor: int, passengers: int): (r: CallReport)
    requires PoolSize <= |draws| && DrawsInRange(draws)
    ensures r.car.id == car.id
    ensures floor > HighestCallableFloor ==> r.outcome == FloorTooHigh && r.car == car
    ensures r.outcome == FloorTooHigh <==> floor > HighestCallableFloor
    ensures r.outcome == NoElevatorAvailable <==>
      floor <= HighestCallableFloor && DispatchAsync(draws, floor, passengers).None?
    ensures r.outcome == NoElevatorAvailable ==> r.car == car && r.elapsed == 0
    ensures r.outcome.Boarded? <==>
      && 0 <= floor <= HighestCallableFloor
      && DispatchAsync(draws, floor, passengers).Some?
      && 0 < passengers
      && car.passengerCount + passengers <= car.MaxPassengers()
    ensures r.outcome.Boarded? ==>
      && r.outcome.dispatchedId == DispatchAsync(draws, floor, passengers).value.id
      && r.car.passengerCount == car.passengerCount + passengers
    ensures r.outcome == ElevatorFull <==>
      && 0 <= floor <= HighestCallableFloor
      && DispatchAsync(draws, floor, passengers).Some?
      && 0 < passengers
      && car.passengerCount + passengers > car.MaxPassengers()
    ensures r.outcome.Caught? <==>
      floor <= HighestCallableFloor && DispatchAsync(draws, floor, passengers).Some? && (floor < 0 || passengers <= 0)
    ensures r.outcome.Caught? ==> r.outcome.error == ArgumentOutOfRange(if floor < 0 then "floor" else "passengers")
    ensures r.outcome == FloorTooHigh ==> r.elapsed == 0
    ensures r.outcome.Boarded? || r.outcome == ElevatorFull || (r.outcome.Caught? && floor >= 0) ==>
      && r.car.currentFloor == floor
      && (floor != car.currentFloor ==> r.car.state == Idle && r.car.direction == Stationary)
      && (floor == car.currentFloor ==> r.car.state == car.state && r.car.direction == car.direction)
    ensures !r.outcome.Boarded? ==> r.car.passengerCount == car.passengerCount
    ensures floor < 0 ==> r.car == car
  {
    if floor > HighestCallableFloor then
      CallReport(FloorTooHigh, car, 0)
    else
      match DispatchAsync(draws, floor, passengers)
      case None => CallReport(NoElevatorAvailable, car, 0)
      case Some(chosen) =>
        var moved := MoveToFloor(car, floor);
        if moved.outcome.Threw? then
          CallReport(Caught(moved.outcome.error), moved.car, moved.elapsed)
        else
          var boarding := AddPassengers(moved.car, passengers);
          var elapsed := moved.elapsed + boarding.elapsed;
          match boarding.outcome
          case Threw(error) => CallReport(Caught(error), boarding.car, elapsed)
          case Returned(accepted) =>
            if accepted then CallReport(Boarded(chosen.id), boarding.car, elapsed)
            else CallReport(ElevatorFull, boarding.car, elapsed)
  }

  /** A call keeps the repository's car within bounds. */
  lemma CallElevatorPreservesValid(car: Elevator, draws: seq<Draw>, floor: int, passengers: int)
    requires PoolSize <= |draws| && DrawsInRange(draws)
    requires Valid(car)
    ensures Valid(CallElevator(car, draws, floor, passengers).car)
  {
  }

  /** A call keeps a coherent car coherent. */
  lemma CallElevatorPreservesCoherence(car: Elevator, draws: seq<Draw>, floor: int, passengers: int)
    requires PoolSize <= |draws| && DrawsInRange(draws)
    requires Coherent(car)
    ensures Coherent(CallElevator(car, draws, floor, passengers).car)
  {
  }

  /** The car moved is the repository's own: two calls whose pools both offer
      some car leave the repository's car in the same state, wherever the
      dispatched cars stood. */
  lemma CallElevatorIgnoresDispatchedCar(car: Elevator, draws1: seq<Draw>, draws2: seq<Draw>, floor: int, passengers: int)
    requires PoolSize <= |draws1| && DrawsInRange(draws1)
    requires PoolSize <= |draws2| && DrawsInRange(draws2)
    requires DispatchAsync(draws1, floor, passengers).Some? && DispatchAsync(draws2, floor, passengers).Some?
    ensures CallElevator(car, draws1, floor, passengers).car == CallElevator(car, draws2, floor, passengers).car
  {
  }

  /** A non-positive passenger count is not rejected up front: when a car is
      dispatched the move happens, and only the boarding's error is caught. */
  lemma NonPositivePassengersStillMove(car: Elevator, draws: seq<Draw>, floor: int, passengers: int)
    requires PoolSize <= |draws| && DrawsInRange(draws)
    requires 0 <= floor <= HighestCallableFloor && passengers <= 0
    requires exists i :: 0 <= i < PoolSize && States[draws[i].state] == Idle
    ensures var r := CallElevator(car, draws, floor, passengers);
      && r.outcome == Caught(ArgumentOutOfRange("passengers"))
      && r.car.currentFloor == floor
      && r.car.passengerCount == car.passengerCount
  {
    DispatchAsyncFindsIdleCar(draws, floor, passengers);
  }

  /** Floor 0 is not refused by the guard, which only bounds floors from above. */
  lemma FloorZeroIsNotRefused(car: Elevator, draws: seq<Draw>, passengers: int)
    requires PoolSize <= |draws| && DrawsInRange(draws)
    ensures CallElevator(car, draws, 0, passengers).outcome != FloorTooHigh
  {
  }

  /** More passengers than one empty car holds are never refused as such: no
      car of the pool qualifies, so the call reports that none is available
      and leaves the car alone. */
  lemma TooManyPassengersFindNoElevator(car: Elevator, draws: seq<Draw>, floor: int, passengers: int)
    requires PoolSize <= |draws| && DrawsInRange(draws)
    requires floor <= HighestCallableFloor && passengers > MaxPassengers
    ensures CallElevator(car, draws, floor, passengers) == CallReport(NoElevatorAvailable, car, 0)
  {
    DispatchAsyncFindsIdleCar(draws, floor, passengers);
  }

  /** The guard is tighter than the building: floors 11 to 15 exist but cannot
      be called. */
  lemma UpperFloorsCannotBeCalled(car: Elevator, draws: seq<Draw>, floor: int, passengers: int)
    requires PoolSize <= |draws| && DrawsInRange(draws)
    requires HighestCallableFloor < floor <= TotalFloors
    ensures CallElevator(car, draws, floor, passengers) == CallReport(FloorTooHigh, car, 0)
  {
  }
}

=== FILE: unchecked.dfy ===
/** The two repository operations and the dispatcher's ordering key as C#
    evaluates them in its default unchecked context, where `int` arithmetic
    wraps at 32 bits. The rest of the model uses the unbounded versions in
    `Repository` and `Dispatcher`. */
module Unchecked {
  import Int32
  import opened ElevatorConstants
  import opened Elevators
  import opened Repository
  import Dispatcher

  /** A car whose integer fields fit in 32 bits. */
  predicate Fits(e: Elevator) {
    Int32.InRange(e.id) && Int32.InRange(e.currentFloor) && Int32.InRange(e.passengerCount)
  }

  /** AddPassengersAsync with the capacity test and the increment both wrapping. */
  function AddPassengersAsWritten(e: Elevator, passengers: int): (r: Effect<bool>)
    requires Fits(e) && Int32.InRange(passengers)
    ensures Fits(r.car)
    ensures r.outcome.Threw? <==> passengers <= 0
    ensures r.outcome == Returned(true) <==>
      passengers > 0 && Int32.Wrap(e.passengerCount + passengers) <= e.MaxPassengers()
    ensures r.outcome == Returned(true) ==> r.car.passengerCount == Int32.Wrap(e.passengerCount + passengers)
    ensures r.outcome != Returned(true) ==> r.car == e
    ensures r.car == e.(passengerCount := r.car.passengerCount)
  {
    if passengers <= 0 then
      Effect(Threw(ArgumentOutOfRange("passengers")), e, 0)
    else if Int32.Wrap(e.passengerCount + passengers) > e.MaxPassengers() then
      Effect(Returned(false), e, BoardingDelay)
    else
      Effect(Returned(true), e.(passengerCount := Int32.Wrap(e.passengerCount + passengers)), BoardingDelay)
  }

  /** Whenever the exact sum fits in 32 bits the C# code as written and the model agree. */
  lemma AddPassengersAgreesWithoutOverflow(e: Elevator, passengers: int)
    requires Fits(e) && Int32.InRange(passengers)
    requires Int32.InRange(e.passengerCount + passengers)
    ensures AddPassengersAsWritten(e, passengers) == AddPassengers(e, passengers)
  {
  }

  /** One passenger aboard and int.MaxValue more: the sum wraps to int.MinValue,
      passes the capacity test, and leaves a negative occupancy, where the
      intended behaviour refuses the boarding. */
  lemma AddPassengersOverflowAdmitsAnyone()
    ensures var e := Elevator(1, 0, Stationary, Idle, 1);
      && AddPassengersAsWritten(e, Int32.Max) == Effect(Returned(true), e.(passengerCount := Int32.Min), BoardingDelay)
      && !Valid(AddPassengersAsWritten(e, Int32.Max).car)
      && AddPassengers(e, Int32.Max) == Effect(Returned(false), e, BoardingDelay)
  {
    var e := Elevator(1, 0, Stationary, Idle, 1);
    assert Int32.Wrap(1 + Int32.Max) == Int32.Min;
  }

  /** Math.Abs on a 32-bit value; int.MinValue has no 32-bit magnitude. */
  function Abs32(x: int): (r: Outcome<int>)
    requires Int32.InRange(x)
    ensures r.Returned? <==> x != Int32.Min
    ensures r.Returned? ==> r.value >= 0 && (r.value == x || r.value == -x)
  {
    if x == Int32.Min then Threw(Overflow) else if x < 0 then Returned(-x) else Returned(x)
  }

  /** MoveToFloorAsync with the floor difference and the travel time wrapping.
      Task.Delay refuses a negative delay other than -1, and the travel time
      is always even, so it is never -1. The `finally` block settles the car
      whether the delay completes or throws. */
  function MoveToFloorAsWritten(e: Elevator, floor: int): (r: Effect<()>)
    requires Fits(e) && Int32.InRange(floor)
    ensures r.outcome.Threw? <==>
      || floor < 0
      || (floor != e.currentFloor &&
            (Int32.Wrap(floor - e.currentFloor) == Int32.Min || WrappedTravelTime(e.currentFloor, floor) < -1))
    ensures floor < 0 ==> r == Effect(Threw(ArgumentOutOfRange("floor")), e, 0)
    ensures 0 <= floor != e.currentFloor && Int32.Wrap(floor - e.currentFloor) == Int32.Min ==>
      r.outcome == Threw(Overflow)
    ensures 0 <= floor != e.currentFloor && Int32.Wrap(floor - e.currentFloor) != Int32.Min && WrappedTravelTime(e.currentFloor, floor) < -1 ==>
      r.outcome == Threw(ArgumentOutOfRange("millisecondsDelay"))
    ensures r.outcome.Threw? ==> r.car.currentFloor == e.currentFloor && r.elapsed == 0
    ensures 0 <= floor == e.currentFloor ==> r == Effect(Returned(()), e, 0)
    ensures r.outcome.Returned? && floor != e.currentFloor ==>
      && r.car == Settle(Departing(e, floor)).(currentFloor := floor)
      && r.elapsed == WrappedTravelTime(e.currentFloor, floor)
    ensures r.outcome.Threw? && floor >= 0 ==> r.car == Settle(e)
    ensures r.car.id == e.id && r.car.passengerCount == e.passengerCount
  {
    if floor < 0 then
      Effect(Threw(ArgumentOutOfRange("floor")), e, 0)
    else if floor == e.currentFloor then
      Effect(Returned(()), e, 0)
    else
      var moving := Departing(e, floor);
      match Abs32(Int32.Wrap(floor - moving.currentFloor))
      case Threw(error) => Effect(Threw(error), Settle(moving), 0)
      case Returned(distance) =>
        var travelTime := Int32.Wrap(distance * MillisPerFloor);
        WrappedTravelTimeIsNotInfinite(distance);
        if travelTime < -1 then
          Effect(Threw(ArgumentOutOfRange("millisecondsDelay")), Settle(moving), 0)
        else
          Effect(Returned(()), Settle(moving.(currentFloor := floor)), travelTime)
  }

  /** `Math.Abs(floor - CurrentFloor) * 1000` with the subtraction and the
      multiplication wrapping. It is what the move waits for whenever the
      difference does not wrap to int.MinValue; in that case Math.Abs throws
      before any delay. */
  function WrappedTravelTime(from: int, to: int): int {
    Int32.Wrap(Distance(0, Int32.Wrap(to - from)) * MillisPerFloor)
  }

  /** A wrapped travel time is even, so it is never -1, the value Task.Delay
      takes as "wait forever". */
  lemma WrappedTravelTimeIsNotInfinite(distance: int)
    ensures Int32.Wrap(distance * MillisPerFloor) != -1
  {
    Int32.WrapKeepsParity(distance * MillisPerFloor);
    assert distance * MillisPerFloor == 2 * (distance * 500);
  }

  /** Within about two million floors of travel the C# code as written and the model agree. */
  lemma MoveToFloorAgreesForNearbyFloors(e: Elevator, floor: int)
    requires Fits(e) && Int32.InRange(floor)
    requires Distance(e.currentFloor, floor) * MillisPerFloor <= Int32.Max
    ensures MoveToFloorAsWritten(e, floor) == MoveToFloor(e, floor)
  {
  }

  /** Three million floors up from the ground: 3 000 000 000 ms wraps to a
      negative delay, Task.Delay throws, and the car is left on the ground,
      where the intended behaviour reaches the floor. */
  lemma MoveToFloorOverflowStrandsCar()
    ensures var e := Elevator(1, 0, Stationary, Idle, 0);
      && MoveToFloorAsWritten(e, 3_000_000) == Effect(Threw(ArgumentOutOfRange("millisecondsDelay")), e, 0)
      && MoveToFloor(e, 3_000_000).outcome.Returned?
      && MoveToFloor(e, 3_000_000).car.currentFloor == 3_000_000
  {
    assert Int32.Wrap(3_000_000 * MillisPerFloor) == 3_000_000_000 - Int32.Modulus;
  }

  /** Two moves that each fit in 32 bits take a car from the ground to floor
      4 294 966. From there the way back to floor 5 wraps to a delay of
      -6 296 ms, so Task.Delay throws and the car stays put, where the
      intended move returns it. */
  lemma MoveToFloorFarCarCannotReturn()
    ensures var e1 := MoveToFloorAsWritten(Elevator(1, 0, Stationary, Idle, 0), 2_147_483);
      && e1.outcome.Returned?
      && var e2 := MoveToFloorAsWritten(e1.car, 4_294_966);
      && e2.outcome.Returned?
      && e2.car.currentFloor == 4_294_966
      && MoveToFloorAsWritten(e2.car, 5) == Effect(Threw(ArgumentOutOfRange("millisecondsDelay")), e2.car, 0)
      && MoveToFloor(e2.car, 5).outcome.Returned?
      && MoveToFloor(e2.car, 5).car.currentFloor == 5
  {
  }

  /** The dispatcher's ordering key `Math.Abs(e.CurrentFloor - requestedFloor)`
      with the difference wrapping; Math.Abs throws when it wraps to int.MinValue. */
  function KeyAsWritten(e: Elevator, requestedFloor: int): (r: Outcome<int>)
    requires Fits(e) && Int32.InRange(requestedFloor)
    ensures r.Threw? <==> Int32.Wrap(e.currentFloor - requestedFloor) == Int32.Min
    ensures r.Threw? ==> r.error == Overflow
    ensures r.Returned? ==> 0 <= r.value <= Int32.Max
    ensures Int32.InRange(e.currentFloor - requestedFloor) && e.currentFloor - requestedFloor != Int32.Min ==>
      r == Returned(Dispatcher.Key(e, requestedFloor))
  {
    Abs32(Int32.Wrap(e.currentFloor - requestedFloor))
  }

  /** Far below the ground floor the wrapped key ranks a car on floor 10 nearer
      than one on floor 7, while the true distances rank them the other way;
      one floor lower still, the key of a car on floor 1 throws. */
  lemma KeyOverflowMisordersCars()
    ensures var near := Elevator(1, 7, Stationary, Idle, 0);
      var far := Elevator(2, 10, Stationary, Idle, 0);
      var floor := -2_147_483_640;
      && Dispatcher.Key(near, floor) < Dispatcher.Key(far, floor)
      && KeyAsWritten(near, floor) == Returned(Int32.Max)
      && KeyAsWritten(far, floor) == Returned(Int32.Max - 1)
    ensures KeyAsWritten(Elevator(1, 1, Stationary, Idle, 0), -2_147_483_647) == Threw(Overflow)
  {
    assert Int32.Wrap(10 + 2_147_483_640) == 10 + 2_147_483_640 - Int32.Modulus;
    assert Int32.Wrap(1 + 2_147_483_647) == Int32.Min;
  }
}
